=== FILE: README.md ===
# ELI5 Bot: session store, send pipeline, sign-in and login state

This project is a Dafny model of the state-handling core of the ELI5 Bot
browser chat application. The model covers:

- the dashboard's list of chat sessions (`components/Dashboard.tsx`):
  - initial load, new chat, delete, rename;
  - the whole-list message update, which titles a session from its first
    message, stamps it and re-sorts the list by recency with a stable sort;
- the conversation view's send handler (`components/ChatView.tsx`):
  - the guard against blank text and against a second send while one runs;
  - the three whole-list writes it hands to the dashboard;
  - what those writes do to the session list;
- the sign-in / registration form's submit handler
  (`components/AuthPage.tsx`): validation order, lookup by normalized email,
  password check, duplicate handling with the switch to sign-in mode,
  insert, and the mapping from thrown errors to the line the form shows;
- the application root (`App.tsx`): `authState`, the stored-user slot,
  login, logout, startup restore and the choice of screen.

Every handler is a pure function from state to state. The following become
parameters:

- the outcome of each remote write (`ok: bool`);
- the clock readings and generated ids;
- the user's answer to the delete confirmation;
- the accounts-table oracles: lookup, password check, hash and insert.

The modules are:

- `Types`: the entities of `types.ts`.
- `Text`: `trim`, `toLowerCase`, `includes` and the email key.
- `Recency`: the stable sort by `lastUpdated` descending.
- `SessionStore`: the dashboard handlers.
- `ChatView`: the send handler and its delivery to the store.
- `AuthPage`: the submit handler.
- `App`: the root.

## Model

| member | source | states |
|---|---|---|
| Text.Trim | components/Dashboard.tsx:110-114 | The trimmed string has no leading or trailing whitespace and is empty exactly when the input is all whitespace. |
| Text.TrimIsCut | components/Dashboard.tsx:110-114 | The trimmed string is the piece of the input that starts after its leading whitespace; only whitespace precedes it and only whitespace follows it. |
| Text.TrimIdempotent | components/AuthPage.tsx:84 | Trimming an already trimmed string changes nothing, so a stored trimmed name or title trims to itself. |
| Text.ToLower | components/AuthPage.tsx:34 | `toLowerCase` over ASCII keeps the length and replaces every ASCII capital A-Z by its lower-case letter, position by position; every other character is kept. |
| Text.LowerTrimCommute | components/AuthPage.tsx:34 | Lower-casing and trimming commute, because lower-casing never turns a character into or out of whitespace. |
| Text.NormalizeEmail | components/AuthPage.tsx:34 | The email key `toLowerCase().trim()` is the lower-cased trimmed email. It has no upper-case ASCII letters and is empty exactly when the email is all whitespace. |
| Text.NormalizeIdempotent | components/AuthPage.tsx:83 | Normalizing a stored key again gives the same key, so a key inserted at registration is found again by the sign-in lookup. |
| Recency.SortByRecency | components/Dashboard.tsx:159 | The re-sort puts the list in non-increasing `lastUpdated` order, with the same sessions (as a multiset) and the same length. |
| Recency.SortKeepsIds | components/Dashboard.tsx:159 | The re-sort keeps the multiset of session ids. |
| Recency.SortStable | components/Dashboard.tsx:159 | Sessions with equal `lastUpdated` keep their relative order, as JavaScript's stable sort keeps them. |
| Recency.SortOfSortedIsIdentity | components/Dashboard.tsx:159 | A list already in recency order is returned unchanged. |
| Recency.StableSortIsUnique | components/Dashboard.tsx:159 | Two recency-sorted lists with the same tie groups are equal, so every stable sort with this comparator gives the modelled result. |
| SessionStore.Find | components/Dashboard.tsx:128 | `find` by id returns the first session of the list that carries that id, and returns none exactly when no session carries it. |
| SessionStore.ActiveSession | components/Dashboard.tsx:54 | The shown session is the first stored session carrying the active id: no earlier session carries it. There is one exactly when the active id is set and some stored session carries it. |
| SessionStore.Select | components/Dashboard.tsx:198 | A click on a session makes its id the active id and changes neither the list nor the rename state. |
| SessionStore.SelectShows | components/Dashboard.tsx:54 | After a click on a stored session, the view shows the first stored session with the clicked id. |
| SessionStore.Load | components/Dashboard.tsx:22-49 | A failed fetch, or one that returns no data, changes nothing. Otherwise the list holds the rows in query order, a missing message list becomes empty, and the first row becomes active only when there is one. |
| SessionStore.LoadFromOrderedQuery | components/Dashboard.tsx:24-42 | Rows ordered by `last_updated` descending load as a recency-sorted list whose active session is the first row. |
| SessionStore.NewChat | components/Dashboard.tsx:56-82 | On success a session titled "New Explanation" with no messages, stamped now, is put at index 0. The rest of the list is the old list and the new session becomes active. On failure nothing changes. |
| SessionStore.NewChatKeepsOrder | components/Dashboard.tsx:57-77 | Creating a session with a clock reading no earlier than every stored one keeps the list in recency order. |
| SessionStore.Without | components/Dashboard.tsx:95 | The filter keeps exactly the sessions whose id differs from the deleted one. |
| SessionStore.WithoutDistributes | components/Dashboard.tsx:95 | The filter works piecewise over concatenation, so the kept sessions keep their relative order. |
| SessionStore.WithoutAbsent | components/Dashboard.tsx:95 | Filtering out an id that is not in the list changes nothing. |
| SessionStore.WithoutKeepsOrder | components/Dashboard.tsx:95 | Deleting keeps the list in recency order. |
| SessionStore.DeleteSession | components/Dashboard.tsx:84-101 | With confirmation and a successful remote delete, the list is the old list filtered by id (`Without`): no session with the id remains, and every other session stays in its relative order, as `WithoutDistributes` states. The active id is cleared exactly when it was the deleted id, and no other session is selected. Otherwise nothing changes. |
| SessionStore.DeleteUndoesNewChat | components/Dashboard.tsx:56-101 | Deleting a freshly created session gives back the original list and leaves no active session. |
| SessionStore.RenameSave | components/Dashboard.tsx:109-125 | An all-whitespace value or a failed write changes no session. Otherwise the sessions with the id take the trimmed, non-empty value as title. Ids, messages and timestamps never change, and editing always ends. |
| SessionStore.RenameKeepsOrder | components/Dashboard.tsx:119 | Renaming keeps the list in recency order. |
| SessionStore.DeriveTitle | components/Dashboard.tsx:131-135 | A "New Explanation" session written with a non-empty list gets the first message's content if it has at most 30 characters. Otherwise it gets the content's first 27 characters plus "...", 30 in all. Any other title is kept. |
| SessionStore.TitleBound | components/Dashboard.tsx:131-135 | A title is either kept or at most 30 characters long. |
| SessionStore.DeriveTitleStable | components/Dashboard.tsx:131-135 | Deriving the title again from a list with the same first message leaves the derived title unchanged. |
| SessionStore.UpdateSessionMessages | components/Dashboard.tsx:127-164 | A missing id or a failed write changes nothing. On success the list is recency-sorted, has the same ids and length, and the sessions with the id carry exactly the passed messages, the captured time and the derived title. Every other session is kept unchanged. |
| SessionStore.UpdateKeepsTieOrder | components/Dashboard.tsx:152-159 | After an update, the untouched sessions that share any timestamp other than the new one keep their prior relative order. |
| SessionStore.UpdatedSessionComesFirst | components/Dashboard.tsx:152-159 | A session written later than every stored session moves to index 0. |
| SessionStore.UpdateThenFind | components/Dashboard.tsx:152-157 | After a successful update the session found under the id has the written messages, the write's time and the derived title. |
| SessionStore.ThreeWrites | components/Dashboard.tsx:127-160 | Three successful writes of lists that share their first message leave the last list, the last time and the title derived by the first write. |
| SessionStore.ShortFirstMessageTitle | components/Dashboard.tsx:131-135 | A new chat first written with a message of at most 30 characters is titled with that message. |
| SessionStore.LongFirstMessageTitle | components/Dashboard.tsx:131-135 | A new chat first written with a message longer than 30 characters is titled with its first 27 characters plus "...". |
| SessionStore.SecondMovesUp | components/Dashboard.tsx:152-159 | Of two sessions, writing the second later than both were stamped puts it first and the other second. |
| SessionStore.RewrittenChatMovesUp | components/Dashboard.tsx:152-159 | Chats created at t1 < t2, with the older rewritten at t3 > t2, end in the order older, newer. |
| ChatView.Send | components/ChatView.tsx:39-117 | A send is ignored exactly when the text is all whitespace or a send is under way. Otherwise it makes three writes, all to the shown session: (1) its messages plus a user message with the untrimmed text and the selected level; (2) that list plus an empty model placeholder; (3) that list plus the placeholder carrying the fixed reply, two longer than the original. The view ends idle with empty input. |
| ChatView.MountedViewSends | components/ChatView.tsx:16-40 | The view mounts with empty input, level Child and no send under way, so any text that is not all whitespace is sent from it, and the send leaves the view in that same state. |
| ChatView.ReplyIgnoresInput | components/ChatView.tsx:79-84 | The final list's reply is the same fixed text whatever the input text or reading level. |
| ChatView.Deliver | components/Dashboard.tsx:299 | Handing calls to the store keeps the active id, the length and the ids, and changes nothing when every write fails. |
| ChatView.DeliverFrame | components/Dashboard.tsx:299 | Calls addressed to one session leave every other session as it was. |
| ChatView.DeliverToOne | components/Dashboard.tsx:127-160 | Three successful writes to one shown session, whose lists share their first message, leave it holding the last list at the last write's time. Its title is derived from the first list, and the session list stays recency-sorted. |
| ChatView.PendingThenReply | components/Dashboard.tsx:127-160 | Writing a list, then the list plus a pending message, then the list plus the finished message, all successfully, leaves the session with the finished list at the last time and the title derived from the first list. |
| ChatView.SendReachesStore | components/ChatView.tsx:50-84 | A send from a shown session, with all writes succeeding, leaves that session with its old messages, the user message and the reply. The session is stamped with the last write's time and titled from its first message, and the list stays recency-sorted. |
| ChatView.SendLeavesOthers | components/ChatView.tsx:51-81 | A send changes no other session of the list, whatever its writes report. |
| Text.Contains | components/AuthPage.tsx:101 | `includes`: the empty string occurs in every string, and a string that occurs is no longer than the one it occurs in. |
| Text.ContainsInfix | components/AuthPage.tsx:101 | A string contains every piece it is built from. |
| AuthPage.MissingLetter | components/AuthPage.tsx:101 | A string lacking one of the characters of a pattern does not contain the pattern. |
| AuthPage.ErrorText | components/AuthPage.tsx:95-107 | A 'Failed to fetch' message or a TypeError gives the connection text. Otherwise code 42P01 gives the missing-table text. Otherwise the error's own message is shown, or the fallback when it has none. The result is never empty. |
| AuthPage.RequiredShownVerbatim | components/AuthPage.tsx:26-28 | The missing-field error reaches the form as "Email and password are required.". |
| AuthPage.Submit | components/AuthPage.tsx:19-111 | An empty raw email or password fails with the required-fields message before any remote call, in both modes. The form signs in exactly when no error is shown. Every lookup and insert uses the normalized email, and an insert follows only a register-mode lookup that found nothing. A signed-in user is the found row whose password verified, and a found row whose password verifies does sign in. A free email with a non-blank name is inserted and the returned row signs in. A failed lookup or insert shows its error through the catch block's mapping. Only a duplicate registration switches the mode. |
| AuthPage.SignIn | components/AuthPage.tsx:30-52 | One lookup. A failed lookup shows the mapped error, an unknown email gives "No account found with this email.", and a password that does not verify gives "Incorrect password.". A found row whose password verifies logs in with the row's id, email and name, and nothing else logs in. |
| AuthPage.Register | components/AuthPage.tsx:53-74 | An all-whitespace name fails with "Please enter your name." before any call. Otherwise the first call is the lookup. A failed lookup shows the mapped error, and a found email fails, switches to sign-in mode and inserts nothing. A free email goes on to the insert of the normalized email, the trimmed name and the hash, and only that path logs in. |
| AuthPage.Enroll | components/AuthPage.tsx:76-93 | After the lookup, the account is inserted. A returned row logs in with its id, email and name, and a failed insert shows the mapped error. |
| AuthPage.SubmitSeesOnlyEmailKey | components/AuthPage.tsx:30-94 | Two submits whose emails normalize to the same key have the same outcome. |
| AuthPage.DuplicateVariantRejected | components/AuthPage.tsx:60-74 | With "a@b.com" registered, registering "A@b.com " fails as a duplicate, switches to sign-in mode and makes only the lookup. |
| App.Mount | App.tsx:8-13 | The first render is signed out, consistent and loading. |
| App.Restore | App.tsx:15-25 | A stored user signs the app in as that user; an empty slot keeps the state. Loading ends either way. |
| App.Start | App.tsx:8-25 | A page load is authenticated exactly when the slot holds a user, and restores that user. |
| App.Login | App.tsx:27-30 | Login stores the user and signs in as that same user. |
| App.Logout | App.tsx:32-35 | Logout empties the slot and signs out. |
| App.Render | App.tsx:37-51 | The spinner shows exactly while loading. After that the dashboard for the user shows when authenticated, and the form shows otherwise. |
| App.RunStaysSettled | App.tsx:8-35 | Through any sequence of logins, logouts and reloads, `isAuthenticated` holds exactly when a user is present, and that user is the stored one. |
| App.ScreenFollowsUser | App.tsx:45-51 | From any page load and any events, the dashboard shows the signed-in user and the form shows exactly when nobody is signed in. |
| App.LoginSurvivesReload | App.tsx:17-29 | A login followed by a reload restores the same user. |
| App.LogoutSurvivesReload | App.tsx:17-34 | A logout followed by a reload is signed out and shows the form. |

## Left out

- The remote data store, bcrypt and `window.confirm` are oracles or parameters:
  - each write's success is an `ok` flag;
  - the accounts table is a lookup, password-check, hash and insert oracle;
  - the confirmation is a `confirmed` flag.
- Ids and clock readings (`Date.now()`) are parameters. The source does not make ids unique, so no uniqueness is claimed.
- Local storage and JSON: the `eli5_user` entry is an `Option<User>` slot. Serialising a user and parsing it back is assumed to give the same user.
- Asynchrony: each `onUpdateMessages` call is one atomic transition on the current state. The source's three un-awaited writes read a stale `sessions` closure. Interleavings of those writes and the resulting lost updates are not modelled.
- The send handler's catch path (components/ChatView.tsx:85-110) is left out. It calls `onUpdateMessages` with only the message list, where the session id belongs. This is a latent defect, but nothing in the try block can throw, so no input reaches it.
- The reply generator service, the HTTP proxy, the Supabase client setup and the prompt constants are out of scope. The view never calls the generator; it always answers with a fixed text.
- AuthPage.Register, AuthPage.SubmitSeesOnlyEmailKey: `hash` is a fixed function of the password, so it stands for hashing with one fixed salt. The random salt from `bcrypt.genSalt(10)` (components/AuthPage.tsx:76-77) is not modelled. With a fresh salt per call, two registrations of the same password would insert different hashes.
- AuthPage.SignIn, AuthPage.Enroll: the password check and the hash are total oracles. In the source, `bcrypt.compare`, `genSalt` and `hash` (components/AuthPage.tsx:45, 76-77) can reject, for example on a missing stored hash, and the catch block then shows that error's text. The model has no such failure.
- Text.Trim: whitespace is a fixed set of ten code points (tab, LF, VT, FF, CR, space, U+00A0, U+2028, U+2029, U+FEFF). The other Unicode space separators that JavaScript's `trim` also removes are not treated as whitespace.
- Text.ToLower, Text.NormalizeEmail: `toLowerCase` maps only ASCII A-Z. Other letters are left as they are.
- SessionStore.DeriveTitle: lengths and the 27-character cut count characters. JavaScript counts UTF-16 code units, so text outside the Basic Multilingual Plane is measured differently.
- The rename start (`startRenaming`, components/Dashboard.tsx:103-107) is not modelled. It sets `editingId` and pre-fills `editingValue` with the title. The edited text reaches `SessionStore.RenameSave` as its `value` parameter, and `editingValue` is not part of the store.
- The sidebar toggle (`isSidebarOpen`, components/Dashboard.tsx:15, 276) and scrolling to the newest message (components/ChatView.tsx:22-28) are presentation only and are not modelled. Selecting a session in the sidebar is modelled as `SessionStore.Select`.
- The mode toggle link (components/AuthPage.tsx:186-191) is not modelled. It flips `isLogin` and clears the error line, and it reaches `AuthPage.Submit` only as the form's `isLogin` field.
- The form's loading flag (components/AuthPage.tsx:178, 188) is not modelled. It disables both buttons while a submit runs, so a second submit cannot start. `AuthPage.Submit` is one atomic call.
- The example buttons (components/Dashboard.tsx:327-331) are not modelled. A button runs `handleNewChat` and then, in its `.then`, dispatches the example text as a "start-example-chat" event. It dispatches whether or not the insert succeeded, because `handleNewChat` swallows the insert error (components/Dashboard.tsx:79-81). The example grid is shown only while no session is shown (components/Dashboard.tsx:295), so at the click no conversation view is listening (components/ChatView.tsx:30-37). After a failed insert the event reaches no one. After a successful one it becomes a `ChatView.Send` only if the new view has mounted and registered its listener before the `.then` callback runs, and the source does not ensure that ordering.
- The initial-loading spinner of the dashboard is not modelled. The root's loading flag is.

=== FILE: app.dfy ===
/** The application root (App.tsx): the authentication state, the single
    stored-user slot that stands for the browser's `eli5_user` entry, and the
    choice of screen. The slot holds the user itself: serialising it on
    login and parsing it on startup is taken to give the same user back. */
module App {
  import opened Types

  /** The root's state: `authState`, the stored-user slot and `isLoading`. */
  datatype App = App(auth: AuthState, slot: Option<User>, isLoading: bool)

  /** What the root renders. */
  datatype Screen = Spinner | DashboardScreen(user: User) | AuthScreen

  /** The signed-out state. */
  const SignedOut: AuthState := AuthState(None, false)

  /** `isAuthenticated` says exactly whether a user is present. */
  predicate Consistent(a: AuthState) {
    a.isAuthenticated <==> a.user.Some?
  }

  /** The first render: signed out and still loading, with whatever the
      slot holds from earlier visits. */
  function Mount(slot: Option<User>): (r: App)
    ensures Consistent(r.auth) && r.auth.user.None? && r.isLoading && r.slot == slot
  {
    App(SignedOut, slot, true)
  }

  /** The startup effect: a stored user signs the app in as that user;
      either way loading ends. */
  function Restore(a: App): (r: App)
    ensures r.slot == a.slot && !r.isLoading
    ensures a.slot.Some? ==> r.auth == AuthState(a.slot, true)
    ensures a.slot.None? ==> r.auth == a.auth
  {
    match a.slot
    case Some(u) => a.(auth := AuthState(Some(u), true), isLoading := false)
    case None => a.(isLoading := false)
  }

  /** A page load: mount with the stored slot, then run the startup effect. */
  function Start(slot: Option<User>): (r: App)
    ensures Consistent(r.auth) && !r.isLoading && r.slot == slot
    ensures r.auth.isAuthenticated <==> slot.Some?
    ensures r.auth.user == slot
  {
    Restore(Mount(slot))
  }

  /** `handleLogin(user)`: store the user, then sign in as that same user. */
  function Login(a: App, u: User): (r: App)
    ensures r.slot == Some(u) && r.auth.user == Some(u) && r.auth.isAuthenticated
    ensures r.isLoading == a.isLoading
  {
    a.(slot := Some(u), auth := AuthState(Some(u), true))
  }

  /** `handleLogout`: empty the slot and sign out. */
  function Logout(a: App): (r: App)
    ensures r.slot.None? && r.auth.user.None? && !r.auth.isAuthenticated
    ensures r.isLoading == a.isLoading
  {
    a.(slot := None, auth := SignedOut)
  }

  /** The screen chosen for a state. A signed-in state must carry its user:
      the root hands `authState.user!` to the dashboard. */
  function Render(a: App): (s: Screen)
    requires a.auth.isAuthenticated ==> a.auth.user.Some?
    ensures a.isLoading <==> s == Spinner
    ensures !a.isLoading && a.auth.isAuthenticated ==> s == DashboardScreen(a.auth.user.value)
    ensures !a.isLoading && !a.auth.isAuthenticated ==> s == AuthScreen
  {
    if a.isLoading then Spinner
    else if a.auth.isAuthenticated then DashboardScreen(a.auth.user.value)
    else AuthScreen
  }

  /** Something that can happen to the running app; `Reload` is a page
      reload, which keeps only the slot. */
  datatype Event = LoginEvent(user: User) | LogoutEvent | Reload

  function Step(a: App, e: Event): App {
    match e
    case LoginEvent(u) => Login(a, u)
    case LogoutEvent => Logout(a)
    case Reload => Start(a.slot)
  }

  function Run(a: App, events: seq<Event>): App
    decreases |events|
  {
    if |events| == 0 then a else Run(Step(a, events[0]), events[1..])
  }

  /** The in-memory user and the stored user agree, the flag matches the
      user and loading is over. */
  predicate Settled(a: App) {
    Consistent(a.auth) && a.auth.user == a.slot && !a.isLoading
  }

  /** Every state reachable from a page load is settled: whatever happens,
      `isAuthenticated` is true exactly when there is a user, and that user
      is the stored one. */
  lemma {:induction false} RunStaysSettled(a: App, events: seq<Event>)
    requires Settled(a)
    ensures Settled(Run(a, events))
    decreases |events|
  {
    if |events| > 0 {
      RunStaysSettled(Step(a, events[0]), events[1..]);
    }
  }

  /** From any page load, the dashboard shows exactly when a user is
      signed in, and it shows that user; otherwise the form shows. */
  lemma ScreenFollowsUser(slot: Option<User>, events: seq<Event>)
    ensures
      var a := Run(Start(slot), events);
      && Settled(a)
      && (a.auth.isAuthenticated ==> Render(a) == DashboardScreen(a.auth.user.value))
      && (!a.auth.isAuthenticated ==> Render(a) == AuthScreen && a.auth.user.None?)
  {
    RunStaysSettled(Start(slot), events);
  }

  /** Signing in survives a reload: the reloaded app is signed in as the
      same user. */
  lemma LoginSurvivesReload(a: App, u: User)
    ensures Start(Login(a, u).slot).auth == AuthState(Some(u), true)
  {
  }

  /** Signing out survives a reload: the reloaded app shows the form. */
  lemma LogoutSurvivesReload(a: App)
    ensures Start(Logout(a).slot).auth == SignedOut
    ensures Render(Start(Logout(a).slot)) == AuthScreen
  {
  }
}

=== FILE: auth_page.dfy ===
/** The sign-in / registration form's submit handler
    (components/AuthPage.tsx, `handleSubmit`) as a decision procedure. The
    accounts table and the password hash are oracles: a lookup by email key,
    a password check against a stored hash, a hash of a new password and an
    insert that returns the new row. The handler records which remote calls
    it made, in order. */
module AuthPage {
  import opened Types
  import Text

  /** A row of the accounts table. */
  datatype AccountRow = AccountRow(id: string, email: string, name: string, passwordHash: string)

  /** The row registration asks the table to insert. */
  datatype NewAccount = NewAccount(email: string, name: string, passwordHash: string)

  /** A thrown error as the handler's catch block reads it: its `name`, its
      `message` (empty when absent) and its `code` (empty when absent). */
  datatype Failure = Failure(name: string, message: string, code: string)

  /** The answer to `select ... eq('email', key).maybeSingle()`. */
  datatype Lookup = LookupFailed(err: Failure) | NoAccount | Found(row: AccountRow)

  /** The answer to `insert(...).select().single()`. */
  datatype Insert = InsertFailed(err: Failure) | Inserted(row: AccountRow)

  /** The oracles the handler talks to. `hash` stands for generating a salt
      and hashing the password with it. */
  datatype Backend = Backend(
    lookup: string -> Lookup,
    verify: (string, string) -> bool,
    hash: string -> string,
    insert: NewAccount -> Insert)

  /** The form's fields; `isLogin` is the sign-in (true) or register mode. */
  datatype Form = Form(isLogin: bool, email: string, password: string, name: string)

  /** A request the handler sends to the accounts table. */
  datatype RemoteCall = LookupCall(key: string) | InsertCall(account: NewAccount)

  /** What a submit leaves behind: the error line shown (if any), the form's
      mode, the user handed to `onLogin` (if any) and the remote calls made. */
  datatype Outcome = Outcome(
    error: Option<string>,
    isLogin: bool,
    loggedIn: Option<User>,
    calls: seq<RemoteCall>)

  const RequiredMsg: string := "Email and password are required."
  const NoAccountMsg: string := "No account found with this email."
  const WrongPasswordMsg: string := "Incorrect password."
  const NameMsg: string := "Please enter your name."
  const DuplicateMsg: string := "This email is already registered. Try signing in!"
  const FallbackMsg: string := "An unexpected error occurred."
  const ConnectionMsg: string :=
    "Connection Failed: Could not reach Supabase. Check that VITE_SUPABASE_URL in your .env is correct and has no trailing slashes."
  const MissingTableMsg: string :=
    "Database Error: The 'eli5_users' table was not found. Did you run the SQL script in Supabase?"

  /** The catch block's translation of a thrown error into the line shown:
      unreachable-server errors and a missing table get remediation text,
      anything else shows its own message, or a fallback when it has none. */
  function ErrorText(e: Failure): (m: string)
    ensures m != []
    ensures Text.Contains(e.message, "Failed to fetch") || e.name == "TypeError" ==> m == ConnectionMsg
    ensures !Text.Contains(e.message, "Failed to fetch") && e.name != "TypeError" && e.code == "42P01"
            ==> m == MissingTableMsg
    ensures !Text.Contains(e.message, "Failed to fetch") && e.name != "TypeError" && e.code != "42P01"
            ==> m == (if e.message == [] then FallbackMsg else e.message)
  {
    var message := if e.message == [] then FallbackMsg else e.message;
    FallbackIsPlain();
    if Text.Contains(message, "Failed to fetch") || e.name == "TypeError" then ConnectionMsg
    else if e.code == "42P01" then MissingTableMsg
    else message
  }

  /** The fallback text is not itself a connection error. */
  lemma FallbackIsPlain()
    ensures !Text.Contains(FallbackMsg, "Failed to fetch")
  {
    MissingLetter(FallbackMsg, "Failed to fetch", 0);
  }

  /** The validation error thrown for an empty field, as the catch block sees
      it: a plain `Error` with no code. */
  const RequiredFailure: Failure := Failure("Error", RequiredMsg, "")

  /** A string lacking one of the characters of `sub` does not contain it. */
  lemma MissingLetter(s: string, sub: string, i: nat)
    requires i < |sub| && sub[i] !in s
    ensures !Text.Contains(s, sub)
  {
  }

  /** The required-fields text is not a connection error either. */
  lemma RequiredIsPlain()
    ensures !Text.Contains(RequiredMsg, "Failed to fetch")
  {
    MissingLetter(RequiredMsg, "Failed to fetch", 0);
  }

  /** The required-fields error is shown as it was thrown. */
  lemma RequiredShownVerbatim()
    ensures ErrorText(RequiredFailure) == RequiredMsg
  {
    var e := RequiredFailure;
    assert e.message == RequiredMsg && e.name == "Error" && e.code == [];
    RequiredIsPlain();
    assert e.name != "TypeError" && e.code != "42P01";
  }

  /** The user handed to `onLogin` for an account row. */
  function UserOf(row: AccountRow): User {
    User(row.id, row.email, row.name)
  }

  /** `handleSubmit` on the form `f`: an empty field is refused before any
      call; otherwise the email key goes to the sign-in or the registration
      branch, and every thrown error is shown through `ErrorText`. */
  function Submit(f: Form, b: Backend): (r: Outcome)
    ensures (f.email == [] || f.password == []) ==>
      r == Outcome(Some(RequiredMsg), f.isLogin, None, [])
    ensures r.loggedIn.Some? <==> r.error.None?
    ensures r.isLogin != f.isLogin ==> !f.isLogin && r.isLogin && r.error == Some(DuplicateMsg)
    ensures KeyedCalls(r.calls, f.isLogin, f.name, b, Text.NormalizeEmail(f.email))
    ensures f.isLogin && r.loggedIn.Some? ==>
      var found := b.lookup(Text.NormalizeEmail(f.email));
      && found.Found?
      && b.verify(f.password, found.row.passwordHash)
      && r.loggedIn == Some(UserOf(found.row))
    ensures f.email != [] && f.password != [] && f.isLogin ==>
      var found := b.lookup(Text.NormalizeEmail(f.email));
      found.Found? && b.verify(f.password, found.row.passwordHash) ==> r.loggedIn == Some(UserOf(found.row))
    ensures f.email != [] && f.password != [] && (f.isLogin || !Text.AllSpace(f.name)) ==>
      var found := b.lookup(Text.NormalizeEmail(f.email));
      found.LookupFailed? ==> r.error == Some(ErrorText(found.err))
    ensures f.email != [] && f.password != [] && !f.isLogin && !Text.AllSpace(f.name)
            && b.lookup(Text.NormalizeEmail(f.email)) == NoAccount ==>
      var account := NewAccount(Text.NormalizeEmail(f.email), Text.Trim(f.name), b.hash(f.password));
      && (b.insert(account).Inserted? ==> r.loggedIn == Some(UserOf(b.insert(account).row)))
      && (b.insert(account).InsertFailed? ==> r.error == Some(ErrorText(b.insert(account).err)))
  {
    if f.email == [] || f.password == [] then
      RequiredShownVerbatim();
      Outcome(Some(ErrorText(RequiredFailure)), f.isLogin, None, [])
    else
      var key := Text.NormalizeEmail(f.email);
      if f.isLogin then SignIn(f.password, b, key)
      else Register(f.name, f.password, b, key)
  }

  /** Calls made by a submit use the email key `key`; an insert also carries
      the trimmed name and only follows a lookup that found no account. */
  ghost predicate KeyedCalls(calls: seq<RemoteCall>, isLogin: bool, name: string, b: Backend, key: string) {
    && (forall k :: 0 <= k < |calls| && calls[k].LookupCall? ==> calls[k].key == key)
    && (forall k :: 0 <= k < |calls| && calls[k].InsertCall? ==>
          && !isLogin
          && calls[k].account.email == key
          && calls[k].account.name == Text.Trim(name)
          && b.lookup(key) == NoAccount)
  }

  /** The sign-in branch: one lookup, then the password check. A verified
      password signs in as the stored account; a missing account, a wrong
      password and a failed lookup each show their own error. */
  function SignIn(password: string, b: Backend, key: string): (r: Outcome)
    ensures r.loggedIn.Some? <==> r.error.None?
    ensures r.isLogin && r.calls == [LookupCall(key)]
    ensures KeyedCalls(r.calls, true, [], b, key)
    ensures r.loggedIn.Some? ==>
      && b.lookup(key).Found?
      && b.verify(password, b.lookup(key).row.passwordHash)
      && r.loggedIn == Some(UserOf(b.lookup(key).row))
    ensures b.lookup(key).Found? && b.verify(password, b.lookup(key).row.passwordHash)
            ==> r.loggedIn == Some(UserOf(b.lookup(key).row))
    ensures b.lookup(key).LookupFailed? ==> r.error == Some(ErrorText(b.lookup(key).err))
    ensures b.lookup(key) == NoAccount ==> r.error == Some(NoAccountMsg)
    ensures b.lookup(key).Found? && !b.verify(password, b.lookup(key).row.passwordHash)
            ==> r.error == Some(WrongPasswordMsg)
  {
    match b.lookup(key)
    case LookupFailed(e) => Outcome(Some(ErrorText(e)), true, None, [LookupCall(key)])
    case NoAccount => Outcome(Some(NoAccountMsg), true, None, [LookupCall(key)])
    case Found(row) =>
      if !b.verify(password, row.passwordHash) then
        Outcome(Some(WrongPasswordMsg), true, None, [LookupCall(key)])
      else
        Outcome(None, true, Some(UserOf(row)), [LookupCall(key)])
  }

  /** The registration branch: name check, duplicate check, insert. A blank
      name is refused before any call; otherwise the key is looked up first.
      A taken key switches to sign-in, a free one goes on to `Enroll` with
      the trimmed name and the hashed password, and a failed lookup shows its
      error. */
  function Register(name: string, password: string, b: Backend, key: string): (r: Outcome)
    ensures r.loggedIn.Some? <==> r.error.None?
    ensures KeyedCalls(r.calls, false, name, b, key)
    ensures r.isLogin ==> r.error == Some(DuplicateMsg) && r.calls == [LookupCall(key)]
    ensures Text.AllSpace(name) ==> r.error == Some(NameMsg) && r.calls == [] && !r.isLogin
    ensures !Text.AllSpace(name) ==> |r.calls| > 0 && r.calls[0] == LookupCall(key)
    ensures !Text.AllSpace(name) && b.lookup(key).Found? ==> r.isLogin
    ensures !Text.AllSpace(name) && b.lookup(key).LookupFailed? ==>
      r.error == Some(ErrorText(b.lookup(key).err)) && !r.isLogin && r.calls == [LookupCall(key)]
    ensures !Text.AllSpace(name) && b.lookup(key) == NoAccount ==>
      r == Enroll(NewAccount(key, Text.Trim(name), b.hash(password)), b)
    ensures r.loggedIn.Some? ==>
      && !Text.AllSpace(name)
      && b.lookup(key) == NoAccount
      && r == Enroll(NewAccount(key, Text.Trim(name), b.hash(password)), b)
  {
    if Text.AllSpace(name) then Outcome(Some(NameMsg), false, None, [])
    else
      match b.lookup(key)
      case LookupFailed(e) => Outcome(Some(ErrorText(e)), false, None, [LookupCall(key)])
      case Found(_) => Outcome(Some(DuplicateMsg), true, None, [LookupCall(key)])
      case NoAccount => Enroll(NewAccount(key, Text.Trim(name), b.hash(password)), b)
  }

  /** The end of a registration once the key is free: one lookup, then the
      insert of `account`. The inserted row signs in; a failed insert shows
      its error. */
  function Enroll(account: NewAccount, b: Backend): (r: Outcome)
    ensures r.calls == [LookupCall(account.email), InsertCall(account)] && !r.isLogin
    ensures r.loggedIn.Some? <==> r.error.None?
    ensures b.insert(account).Inserted? ==> r.loggedIn == Some(UserOf(b.insert(account).row))
    ensures b.insert(account).InsertFailed? ==> r.error == Some(ErrorText(b.insert(account).err))
  {
    var calls := [LookupCall(account.email), InsertCall(account)];
    match b.insert(account)
    case InsertFailed(e) => Outcome(Some(ErrorText(e)), false, None, calls)
    case Inserted(row) => Outcome(None, false, Some(UserOf(row)), calls)
  }

  /** Lookups and inserts see only the normalized email: two submits whose
      emails differ only in letter case and surrounding whitespace have the
      same outcome. */
  lemma SubmitSeesOnlyEmailKey(f: Form, e1: string, e2: string, b: Backend)
    requires e1 != [] && e2 != []
    requires Text.NormalizeEmail(e1) == Text.NormalizeEmail(e2)
    ensures Submit(f.(email := e1), b) == Submit(f.(email := e2), b)
  {
  }

  /** An email already registered cannot be registered again under a
      variant spelling: "A@b.com " finds the account stored as "a@b.com",
      the form fails with the duplicate message, switches to sign-in and
      inserts nothing. */
  lemma DuplicateVariantRejected(b: Backend, password: string, name: string)
    requires b.lookup("a@b.com").Found?
    requires password != []
    requires !Text.AllSpace(name)
    ensures
      var r := Submit(Form(false, "A@b.com ", password, name), b);
      && r.error == Some(DuplicateMsg)
      && r.isLogin
      && r.loggedIn.None?
      && r.calls == [LookupCall("a@b.com")]
  {
    VariantKey();
    var r := Submit(Form(false, "A@b.com ", password, name), b);
    assert r == Register(name, password, b, "a@b.com");
  }

  /** The key of the variant spelling used above. */
  lemma VariantKey()
    ensures Text.NormalizeEmail("A@b.com ") == "a@b.com"
  {
    assert Text.TrimStart("A@b.com ") == "A@b.com ";
    assert "A@b.com "[..7] == "A@b.com";
    assert Text.TrimEnd("A@b.com ") == "A@b.com";
    assert Text.Trim("A@b.com ") == "A@b.com";
    assert Text.ToLower("A@b.com") == "a@b.com";
  }
}

=== FILE: chat_view.dfy ===
/** The conversation view's send handler (components/ChatView.tsx,
    `handleSendMessage`) and what its three whole-list writes do to the
    dashboard's session list. The reply is a fixed text: the view does not
    call any generator. Each write is one atomic store transition. */
module ChatView {
  import opened Types
  import opened Recency
  import Text
  import SessionStore

  /** The view's own state: the input box, the selected reading level and
      whether a send is under way. */
  datatype View = View(input: string, level: ReadingLevel, isGenerating: bool)

  /** The state on mount: empty input, level Child, idle. */
  const Initial: View := View("", Child, false)

  /** The ids and clock readings a send takes for its two messages. */
  datatype Stamp = Stamp(userId: string, userTime: int, modelId: string, modelTime: int)

  /** One `onUpdateMessages(sessionId, messages)` call. */
  datatype StoreCall = StoreCall(sessionId: string, messages: seq<Message>)

  /** A send either does nothing or issues its store calls and ends in a new
      view state. */
  datatype SendResult = Ignored | Sent(calls: seq<StoreCall>, view: View)

  /** The canned reply every send receives. */
  const DefaultReply: string :=
    "Quantum computing is like a magical playground where tiny things called quantum bits, or qubits, "
    + "can be both 0 and 1 at the same time — like a spinning coin that is both heads and tails until "
    + "you look. Because qubits can do many things at once, quantum computers can try lots of answers "
    + "quickly for certain puzzles. They use special rules from quantum physics, like being extra tiny "
    + "and sharing secrets (we call it entanglement), to help solve tricky problems. It's a bit like "
    + "asking many friends to try puzzle pieces at the same time and seeing which fits first.\n\n"
    + "(That's quantum computing: tiny, magical bits doing many things together to solve hard puzzles!)"

  function UserMessage(text: string, level: ReadingLevel, st: Stamp): Message {
    Message(st.userId, UserRole, text, st.userTime, Some(level))
  }

  /** The empty model message shown while the reply is pending. */
  function Placeholder(st: Stamp): Message {
    Message(st.modelId, ModelRole, "", st.modelTime, None)
  }

  /** `handleSendMessage(text)`: blank text or a send already under way does
      nothing. Otherwise three whole-list writes go to the session: its
      messages plus the user message, then plus the placeholder, then plus
      the placeholder carrying the canned reply; the view ends idle with an
      empty input. */
  function Send(v: View, session: ChatSession, text: string, st: Stamp): (r: SendResult)
    ensures (Text.AllSpace(text) || v.isGenerating) <==> r == Ignored
    ensures r.Sent? ==> |r.calls| == 3
    ensures r.Sent? ==> forall i :: 0 <= i < |r.calls| ==> r.calls[i].sessionId == session.id
    ensures r.Sent? ==>
      var n := |session.messages|;
      var first := r.calls[0].messages;
      && |first| == n + 1
      && first[..n] == session.messages
      && first[n].role == UserRole && first[n].content == text && first[n].level == Some(v.level)
    ensures r.Sent? ==>
      var first := r.calls[0].messages;
      var second := r.calls[1].messages;
      && |second| == |first| + 1
      && second[..|first|] == first
      && second[|first|].role == ModelRole && second[|first|].content == []
    ensures r.Sent? ==>
      var first := r.calls[0].messages;
      var second := r.calls[1].messages;
      var third := r.calls[2].messages;
      && |third| == |session.messages| + 2
      && third[..|first|] == first
      && third[|first|] == second[|first|].(content := DefaultReply)
    ensures r.Sent? ==> r.view == v.(input := "", isGenerating := false)
  {
    if Text.AllSpace(text) || v.isGenerating then Ignored
    else
      var withUser := session.messages + [UserMessage(text, v.level, st)];
      var withPlaceholder := withUser + [Placeholder(st)];
      var withReply := withUser + [Placeholder(st).(content := DefaultReply)];
      Sent([StoreCall(session.id, withUser),
            StoreCall(session.id, withPlaceholder),
            StoreCall(session.id, withReply)],
           v.(input := "", isGenerating := false))
  }

  /** The freshly mounted view is idle, so any text that is not all
      whitespace is sent, and the send leaves the view idle and empty again. */
  lemma MountedViewSends(session: ChatSession, text: string, st: Stamp)
    requires !Text.AllSpace(text)
    ensures Send(Initial, session, text, st).Sent?
    ensures Send(Initial, session, text, st).view == Initial
  {
  }

  /** The reply does not depend on what was asked or at which level: two
      sends of the same session end in lists that differ at most in the
      user message. */
  lemma ReplyIgnoresInput(v1: View, v2: View, session: ChatSession, t1: string, t2: string, st: Stamp)
    requires Send(v1, session, t1, st).Sent? && Send(v2, session, t2, st).Sent?
    ensures
      var a := Send(v1, session, t1, st).calls[2].messages;
      var b := Send(v2, session, t2, st).calls[2].messages;
      var n := |session.messages|;
      a[..n] == b[..n] && a[n + 1] == b[n + 1] && a[n + 1].content == DefaultReply
  {
  }

  // ---------------------------------------------------------------------
  // The calls reaching the session store

  /** The clock reading and remote outcome of one store write. */
  datatype Write = Write(now: int, ok: bool)

  /** Applies the calls to the store in order, one write each. */
  function Deliver(s: SessionStore.Store, calls: seq<StoreCall>, writes: seq<Write>)
    : (r: SessionStore.Store)
    requires |writes| == |calls|
    ensures r.activeId == s.activeId && r.editingId == s.editingId
    ensures |r.sessions| == |s.sessions|
    ensures multiset(Ids(r.sessions)) == multiset(Ids(s.sessions))
    ensures (forall i :: 0 <= i < |writes| ==> !writes[i].ok) ==> r == s
    decreases |calls|
  {
    if |calls| == 0 then s
    else
      var next := SessionStore.UpdateSessionMessages(
        s, calls[0].sessionId, calls[0].messages, writes[0].now, writes[0].ok);
      Deliver(next, calls[1..], writes[1..])
  }

  /** Sessions the calls are not addressed to are untouched by them. */
  lemma {:induction false} DeliverFrame(s: SessionStore.Store, calls: seq<StoreCall>, writes: seq<Write>, id: string)
    requires |writes| == |calls|
    requires forall i :: 0 <= i < |calls| ==> calls[i].sessionId == id
    ensures forall c :: c in s.sessions && c.id != id ==> c in Deliver(s, calls, writes).sessions
    ensures forall c :: c in Deliver(s, calls, writes).sessions && c.id != id ==> c in s.sessions
    decreases |calls|
  {
    if |calls| > 0 {
      var next := SessionStore.UpdateSessionMessages(
        s, calls[0].sessionId, calls[0].messages, writes[0].now, writes[0].ok);
      DeliverFrame(next, calls[1..], writes[1..], id);
    }
  }

  /** One call is one update followed by the rest. */
  lemma DeliverStep(s: SessionStore.Store, calls: seq<StoreCall>, writes: seq<Write>)
    requires |writes| == |calls| > 0
    ensures Deliver(s, calls, writes)
      == Deliver(SessionStore.UpdateSessionMessages(
                   s, calls[0].sessionId, calls[0].messages, writes[0].now, writes[0].ok),
                 calls[1..], writes[1..])
  {
  }

  /** Three calls are three updates, one after another. */
  lemma DeliverThree(s: SessionStore.Store, calls: seq<StoreCall>, w0: Write, w1: Write, w2: Write)
    requires |calls| == 3
    ensures Deliver(s, calls, [w0, w1, w2])
      == SessionStore.UpdateSessionMessages(
           SessionStore.UpdateSessionMessages(
             SessionStore.UpdateSessionMessages(s, calls[0].sessionId, calls[0].messages, w0.now, w0.ok),
             calls[1].sessionId, calls[1].messages, w1.now, w1.ok),
           calls[2].sessionId, calls[2].messages, w2.now, w2.ok)
  {
    var ws := [w0, w1, w2];
    var a := SessionStore.UpdateSessionMessages(s, calls[0].sessionId, calls[0].messages, w0.now, w0.ok);
    DeliverStep(s, calls, ws);
    var b := SessionStore.UpdateSessionMessages(a, calls[1].sessionId, calls[1].messages, w1.now, w1.ok);
    DeliverStep(a, calls[1..], ws[1..]);
    var c := SessionStore.UpdateSessionMessages(b, calls[2].sessionId, calls[2].messages, w2.now, w2.ok);
    DeliverStep(b, calls[2..], ws[2..]);
    assert Deliver(c, calls[3..], ws[3..]) == c;
  }

  /** Three successful calls to one session whose lists share their first
      message leave it with the last list, the last time and the title
      derived from the first list, in a list kept in recency order. */
  lemma DeliverToOne(s: SessionStore.Store, id: string, calls: seq<StoreCall>, w0: Write, w1: Write, w2: Write)
    requires SessionStore.Find(s.sessions, id).Some?
    requires |calls| == 3
    requires forall i :: 0 <= i < 3 ==> calls[i].sessionId == id && |calls[i].messages| > 0
    requires calls[1].messages[0] == calls[0].messages[0] && calls[2].messages[0] == calls[0].messages[0]
    requires w0.ok && w1.ok && w2.ok
    ensures
      var fin := Deliver(s, calls, [w0, w1, w2]);
      var c := SessionStore.Find(fin.sessions, id);
      && c.Some?
      && c.value.messages == calls[2].messages
      && c.value.lastUpdated == w2.now
      && c.value.title == SessionStore.DeriveTitle(SessionStore.Find(s.sessions, id).value.title, calls[0].messages)
      && SortedDesc(fin.sessions)
  {
    assert calls[0].sessionId == id && calls[1].sessionId == id && calls[2].sessionId == id;
    DeliverThree(s, calls, w0, w1, w2);
    SessionStore.ThreeWrites(s, id, calls[0].messages, calls[1].messages, calls[2].messages,
                             w0.now, w1.now, w2.now);
  }

  /** Writing a list, then the list plus a pending message, then the list
      plus the finished message, all successfully, leaves the session with
      the last list, the last time and the title derived from the first. */
  lemma PendingThenReply(
    s: SessionStore.Store, session: ChatSession, first: seq<Message>, pending: Message, reply: Message,
    w0: Write, w1: Write, w2: Write)
    requires SessionStore.Find(s.sessions, session.id) == Some(session)
    requires |first| > 0
    requires w0.ok && w1.ok && w2.ok
    ensures
      var calls := [StoreCall(session.id, first), StoreCall(session.id, first + [pending]),
                    StoreCall(session.id, first + [reply])];
      var fin := Deliver(s, calls, [w0, w1, w2]);
      var c := SessionStore.Find(fin.sessions, session.id);
      && c.Some?
      && c.value.messages == first + [reply]
      && c.value.lastUpdated == w2.now
      && c.value.title == SessionStore.DeriveTitle(session.title, first)
      && SortedDesc(fin.sessions)
  {
    var calls := [StoreCall(session.id, first), StoreCall(session.id, first + [pending]),
                  StoreCall(session.id, first + [reply])];
    assert calls[1].messages[0] == first[0];
    assert calls[2].messages[0] == first[0];
    DeliverToOne(s, session.id, calls, w0, w1, w2);
  }

  /** The three lists a send writes, spelled out. */
  lemma SendCalls(v: View, session: ChatSession, text: string, st: Stamp)
    requires Send(v, session, text, st).Sent?
    ensures
      var withUser := session.messages + [UserMessage(text, v.level, st)];
      Send(v, session, text, st).calls
        == [StoreCall(session.id, withUser), StoreCall(session.id, withUser + [Placeholder(st)]),
            StoreCall(session.id, withUser + [Placeholder(st).(content := DefaultReply)])]
  {
  }

  lemma AppendPair(ms: seq<Message>, a: Message, b: Message)
    ensures ms + [a] + [b] == ms + [a, b]
  {
  }

  /** The whole send as the dashboard sees it: when the view shows a session
      of the store and every write succeeds, the session ends with its old
      messages followed by the user message and the canned reply, stamped
      with the last write's time, titled from its first message, and the
      list is in recency order. */
  lemma SendReachesStore(
    s: SessionStore.Store, v: View, session: ChatSession, text: string, st: Stamp,
    w0: Write, w1: Write, w2: Write)
    requires SessionStore.Find(s.sessions, session.id) == Some(session)
    requires Send(v, session, text, st).Sent?
    requires w0.ok && w1.ok && w2.ok
    ensures
      var calls := Send(v, session, text, st).calls;
      var fin := Deliver(s, calls, [w0, w1, w2]);
      var c := SessionStore.Find(fin.sessions, session.id);
      && c.Some?
      && c.value.messages == session.messages
           + [UserMessage(text, v.level, st), Placeholder(st).(content := DefaultReply)]
      && c.value.lastUpdated == w2.now
      && c.value.title == SessionStore.DeriveTitle(session.title, calls[0].messages)
      && SortedDesc(fin.sessions)
  {
    var withUser := session.messages + [UserMessage(text, v.level, st)];
    var reply := Placeholder(st).(content := DefaultReply);
    SendCalls(v, session, text, st);
    PendingThenReply(s, session, withUser, Placeholder(st), reply, w0, w1, w2);
    AppendPair(session.messages, UserMessage(text, v.level, st), reply);
  }

  /** A send changes no other session of the store, whatever its writes
      report. */
  lemma SendLeavesOthers(
    s: SessionStore.Store, v: View, session: ChatSession, text: string, st: Stamp,
    writes: seq<Write>)
    requires Send(v, session, text, st).Sent?
    requires |writes| == 3
    ensures
      var fin := Deliver(s, Send(v, session, text, st).calls, writes);
      && (forall d :: d in s.sessions && d.id != session.id ==> d in fin.sessions)
      && (forall d :: d in fin.sessions && d.id != session.id ==> d in s.sessions)
  {
    DeliverFrame(s, Send(v, session, text, st).calls, writes, session.id);
  }
}

=== FILE: recency.dfy ===
/** Ordering of the session list by recency: the dashboard re-sorts its
    sessions with `sort((a, b) => b.lastUpdated - a.lastUpdated)`, and
    JavaScript's sort is stable. `SortByRecency` is an insertion sort with the
    same comparator; `StableSortIsUnique` shows that every stable sort by this
    key yields the same list, so the choice of algorithm does not matter. */
module Recency {
  import opened Types

  /** Non-increasing by `lastUpdated`: most recently written first. */
  predicate SortedDesc(ss: seq<ChatSession>) {
    forall i, j :: 0 <= i < j < |ss| ==> ss[i].lastUpdated >= ss[j].lastUpdated
  }

  /** The sessions of `ss` stamped exactly `t`, in their order in `ss`. */
  function StampedAt(ss: seq<ChatSession>, t: int): seq<ChatSession> {
    if |ss| == 0 then []
    else if ss[0].lastUpdated == t then [ss[0]] + StampedAt(ss[1..], t)
    else StampedAt(ss[1..], t)
  }

  /** The ids of `ss`, in order. */
  function Ids(ss: seq<ChatSession>): seq<string> {
    if |ss| == 0 then [] else [ss[0].id] + Ids(ss[1..])
  }

  /** Places `x` in front of the first session that is not newer than it, so
      `x` stays ahead of the sessions it ties with. */
  function Insert(x: ChatSession, ys: seq<ChatSession>): (r: seq<ChatSession>)
    ensures multiset(r) == multiset(ys) + multiset{x}
  {
    if |ys| == 0 || ys[0].lastUpdated <= x.lastUpdated then [x] + ys
    else
      assert ys == [ys[0]] + ys[1..];
      [ys[0]] + Insert(x, ys[1..])
  }

  /** Every session of the result is `x` or one of `ys`. */
  lemma InsertMembers(x: ChatSession, ys: seq<ChatSession>)
    ensures forall c :: c in Insert(x, ys) ==> c == x || c in ys
  {
    var r := Insert(x, ys);
    forall c | c in r ensures c == x || c in ys {
      assert c in multiset(r);
    }
  }

  /** Inserting into a sorted list keeps it sorted. */
  lemma {:induction false} InsertSorted(x: ChatSession, ys: seq<ChatSession>)
    requires SortedDesc(ys)
    ensures SortedDesc(Insert(x, ys))
  {
    if |ys| > 0 && ys[0].lastUpdated > x.lastUpdated {
      var rest := Insert(x, ys[1..]);
      InsertSorted(x, ys[1..]);
      InsertMembers(x, ys[1..]);
      forall j | 0 <= j < |rest|
        ensures ys[0].lastUpdated >= rest[j].lastUpdated
      {
        assert rest[j] in rest;
      }
    }
  }

  /** Inserting `x` adds exactly `x.id` to the ids. */
  lemma {:induction false} InsertIds(x: ChatSession, ys: seq<ChatSession>)
    ensures multiset(Ids(Insert(x, ys))) == multiset(Ids(ys)) + multiset{x.id}
  {
    if |ys| == 0 || ys[0].lastUpdated <= x.lastUpdated {
      assert Ids([x] + ys) == [x.id] + Ids(ys) by {
        assert ([x] + ys)[1..] == ys;
      }
    } else {
      var rest := Insert(x, ys[1..]);
      InsertIds(x, ys[1..]);
      assert ([ys[0]] + rest)[1..] == rest;
      assert Ids([ys[0]] + rest) == [ys[0].id] + Ids(rest);
      assert Ids(ys) == [ys[0].id] + Ids(ys[1..]);
    }
  }

  /** The session list sorted most recent first, stably. */
  function SortByRecency(ss: seq<ChatSession>): (r: seq<ChatSession>)
    ensures SortedDesc(r)
    ensures multiset(r) == multiset(ss)
    ensures |r| == |ss|
  {
    if |ss| == 0 then []
    else
      var rest := SortByRecency(ss[1..]);
      InsertSorted(ss[0], rest);
      assert ss == [ss[0]] + ss[1..];
      var r := Insert(ss[0], rest);
      assert |r| == |multiset(r)|;
      r
  }

  /** Sorting keeps the multiset of session ids. */
  lemma {:induction false} SortKeepsIds(ss: seq<ChatSession>)
    ensures multiset(Ids(SortByRecency(ss))) == multiset(Ids(ss))
  {
    if |ss| > 0 {
      SortKeepsIds(ss[1..]);
      InsertIds(ss[0], SortByRecency(ss[1..]));
      assert Ids(ss) == [ss[0].id] + Ids(ss[1..]);
    }
  }

  /** Inserting `x` adds it to its own tie group, at the front, and leaves
      every other tie group alone. */
  lemma {:induction false} InsertStable(x: ChatSession, ys: seq<ChatSession>, t: int)
    ensures StampedAt(Insert(x, ys), t)
            == (if x.lastUpdated == t then [x] else []) + StampedAt(ys, t)
  {
    if |ys| == 0 || ys[0].lastUpdated <= x.lastUpdated {
      assert Insert(x, ys)[1..] == ys;
    } else {
      var rest := Insert(x, ys[1..]);
      assert Insert(x, ys)[1..] == rest;
      InsertStable(x, ys[1..], t);
    }
  }

  /** Stability: sessions stamped with the same time keep their relative
      order across the sort. */
  lemma {:induction false} SortStable(ss: seq<ChatSession>, t: int)
    ensures StampedAt(SortByRecency(ss), t) == StampedAt(ss, t)
  {
    if |ss| > 0 {
      SortStable(ss[1..], t);
      InsertStable(ss[0], SortByRecency(ss[1..]), t);
    }
  }

  /** A list that is already in recency order is left exactly as it is. */
  lemma {:induction false} SortOfSortedIsIdentity(ss: seq<ChatSession>)
    requires SortedDesc(ss)
    ensures SortByRecency(ss) == ss
  {
    if |ss| > 0 {
      assert SortedDesc(ss[1..]);
      SortOfSortedIsIdentity(ss[1..]);
      if |ss| > 1 {
        assert ss[1..][0].lastUpdated <= ss[0].lastUpdated;
      }
    }
  }

  /** Every session of a list that is sorted and older than `t` is missing
      from the tie group `t`. */
  lemma {:induction false} StampedAtOlder(ss: seq<ChatSession>, t: int)
    requires forall i :: 0 <= i < |ss| ==> ss[i].lastUpdated < t
    ensures StampedAt(ss, t) == []
  {
    if |ss| > 0 {
      StampedAtOlder(ss[1..], t);
    }
  }

  /** Two lists sorted by recency with the same tie groups are equal; so any
      stable sort by `lastUpdated` descending computes `SortByRecency`. */
  lemma {:induction false} StableSortIsUnique(a: seq<ChatSession>, b: seq<ChatSession>)
    requires SortedDesc(a) && SortedDesc(b)
    requires forall t :: StampedAt(a, t) == StampedAt(b, t)
    ensures a == b
  {
    if |a| == 0 || |b| == 0 {
      var c := if |a| == 0 then b else a;
      assert c == [] || StampedAt(c, c[0].lastUpdated) != [];
    } else {
      var ta, tb := a[0].lastUpdated, b[0].lastUpdated;
      if ta < tb {
        StampedAtOlder(a, tb);
      } else if tb < ta {
        StampedAtOlder(b, ta);
      } else {
        assert StampedAt(a, ta)[0] == a[0];
        assert StampedAt(b, ta)[0] == b[0];
        forall t
          ensures StampedAt(a[1..], t) == StampedAt(b[1..], t)
        {
          var h := if ta == t then [a[0]] else [];
          assert StampedAt(a, t) == h + StampedAt(a[1..], t);
          assert StampedAt(b, t) == h + StampedAt(b[1..], t);
          assert StampedAt(a, t) == StampedAt(b, t);
          assert StampedAt(a[1..], t) == StampedAt(a, t)[|h|..];
        }
        StableSortIsUnique(a[1..], b[1..]);
        assert a == [a[0]] + a[1..];
        assert b == [b[0]] + b[1..];
      }
    }
  }
}

=== FILE: session_store.dfy ===
/** The dashboard's session list (components/Dashboard.tsx): the signed-in
    user's chat sessions in display order, the active session and the session
    whose title is being edited. Every handler is a pure transition; the
    outcome of its remote write, the clock reading and the generated id are
    parameters. */
module SessionStore {
  import opened Types
  import opened Recency
  import Text

  /** The dashboard's state: `sessions`, `activeSessionId`, `editingId`. */
  datatype Store = Store(
    sessions: seq<ChatSession>,
    activeId: Option<string>,
    editingId: Option<string>)

  /** The state on mount, before the sessions have been fetched. */
  const Initial: Store := Store([], None, None)

  /** A row of the remote sessions table; `messages` may be null. */
  datatype SessionRow = SessionRow(
    id: string,
    title: string,
    messages: Option<seq<Message>>,
    lastUpdated: int)

  function FromRow(row: SessionRow): ChatSession {
    ChatSession(
      row.id,
      row.title,
      match row.messages case Some(ms) => ms case None => [],
      row.lastUpdated)
  }

  // ---------------------------------------------------------------------
  // Lookup

  /** Position of the first session with `id`, or `|ss|` when there is none
      (what `Array.prototype.find` scans for). */
  function IndexOf(ss: seq<ChatSession>, id: string): (k: nat)
    ensures k <= |ss|
    ensures k < |ss| ==> ss[k].id == id
    ensures forall j :: 0 <= j < k ==> ss[j].id != id
  {
    if |ss| == 0 then 0
    else if ss[0].id == id then 0
    else 1 + IndexOf(ss[1..], id)
  }

  /** `sessions.find(s => s.id === id)`: the first session with `id`, if
      there is one. */
  function Find(ss: seq<ChatSession>, id: string): (r: Option<ChatSession>)
    ensures r.Some? ==> r.value in ss && r.value.id == id
    ensures r.Some? ==> exists k :: 0 <= k < |ss| && ss[k] == r.value
                                    && forall j :: 0 <= j < k ==> ss[j].id != id
    ensures r.None? <==> forall c :: c in ss ==> c.id != id
  {
    var k := IndexOf(ss, id);
    if k < |ss| then Some(ss[k]) else None
  }

  /** `activeSession`: the session the conversation view shows, if any. It
      is a stored session carrying the active id, and there is one exactly
      when some stored session carries that id. */
  function ActiveSession(s: Store): (r: Option<ChatSession>)
    ensures s.activeId.None? ==> r.None?
    ensures r.Some? ==> r.value in s.sessions && s.activeId == Some(r.value.id)
    ensures s.activeId.Some? && (exists c :: c in s.sessions && c.id == s.activeId.value) ==> r.Some?
    ensures r.Some? ==> exists k :: 0 <= k < |s.sessions| && s.sessions[k] == r.value
                                    && forall j :: 0 <= j < k ==> s.sessions[j].id != s.activeId.value
  {
    match s.activeId
    case None => None
    case Some(id) => Find(s.sessions, id)
  }

  /** A click on a session in the sidebar: it becomes the active one, and
      nothing else changes. */
  function Select(s: Store, id: string): (r: Store)
    ensures r.activeId == Some(id)
    ensures r.sessions == s.sessions && r.editingId == s.editingId
  {
    s.(activeId := Some(id))
  }

  /** After a click on a stored session, the view shows the first stored
      session carrying the clicked id. */
  lemma SelectShows(s: Store, c: ChatSession)
    requires c in s.sessions
    ensures ActiveSession(Select(s, c.id)) == Find(s.sessions, c.id)
    ensures ActiveSession(Select(s, c.id)).Some?
    ensures ActiveSession(Select(s, c.id)).value.id == c.id
  {
  }

  // ---------------------------------------------------------------------
  // Initial load

  /** The result of the initial fetch: `None` when the query reports an error
      or returns no data, otherwise the rows in the order the query returned
      them. The rows replace the list and the first becomes active. */
  function Load(s: Store, fetched: Option<seq<SessionRow>>): (r: Store)
    ensures fetched.None? ==> r == s
    ensures fetched.Some? ==> |r.sessions| == |fetched.value|
    ensures fetched.Some? ==> forall i :: 0 <= i < |r.sessions| ==>
      var row := fetched.value[i];
      && r.sessions[i].id == row.id
      && r.sessions[i].title == row.title
      && r.sessions[i].lastUpdated == row.lastUpdated
      && (row.messages.Some? ==> r.sessions[i].messages == row.messages.value)
      && (row.messages.None? ==> r.sessions[i].messages == [])
    ensures fetched.Some? && |fetched.value| > 0 ==> r.activeId == Some(fetched.value[0].id)
    ensures fetched.Some? && |fetched.value| == 0 ==> r.activeId == s.activeId
    ensures r.editingId == s.editingId
  {
    match fetched
    case None => s
    case Some(rows) =>
      var loaded := seq(|rows|, i requires 0 <= i < |rows| => FromRow(rows[i]));
      s.(sessions := loaded,
         activeId := if |rows| > 0 then Some(rows[0].id) else s.activeId)
  }

  /** The query orders rows by `last_updated` descending; when it does, the
      loaded list is in recency order and the view opens the newest session. */
  lemma LoadFromOrderedQuery(rows: seq<SessionRow>)
    requires forall i, j :: 0 <= i < j < |rows| ==> rows[i].lastUpdated >= rows[j].lastUpdated
    ensures SortedDesc(Load(Initial, Some(rows)).sessions)
    ensures |rows| > 0 ==> ActiveSession(Load(Initial, Some(rows))) == Some(FromRow(rows[0]))
    ensures |rows| == 0 ==> ActiveSession(Load(Initial, Some(rows))) == None
  {
  }

  // ---------------------------------------------------------------------
  // New chat

  /** The session `handleNewChat` builds. */
  function NewSession(id: string, now: int): ChatSession {
    ChatSession(id, DefaultTitle, [], now)
  }

  /** `handleNewChat`: after the insert succeeds the new session is put in
      front and made active; when the insert fails nothing changes. */
  function NewChat(s: Store, id: string, now: int, ok: bool): (r: Store)
    ensures !ok ==> r == s
    ensures ok ==> |r.sessions| == |s.sessions| + 1
    ensures ok ==> r.sessions[0].id == id && r.sessions[0].title == DefaultTitle
                   && r.sessions[0].messages == [] && r.sessions[0].lastUpdated == now
    ensures ok ==> r.sessions[1..] == s.sessions
    ensures ok ==> r.activeId == Some(id) && ActiveSession(r) == Some(r.sessions[0])
    ensures r.editingId == s.editingId
  {
    if ok then s.(sessions := [NewSession(id, now)] + s.sessions, activeId := Some(id))
    else s
  }

  /** A session created with a clock reading no earlier than every stored
      session keeps the list in recency order. */
  lemma NewChatKeepsOrder(s: Store, id: string, now: int, ok: bool)
    requires SortedDesc(s.sessions)
    requires forall c :: c in s.sessions ==> c.lastUpdated <= now
    ensures SortedDesc(NewChat(s, id, now, ok).sessions)
  {
  }

  // ---------------------------------------------------------------------
  // Delete

  /** `ss.filter(s => s.id !== id)`. */
  function Without(ss: seq<ChatSession>, id: string): (r: seq<ChatSession>)
    ensures forall c :: c in r <==> c in ss && c.id != id
    ensures |r| <= |ss|
  {
    if |ss| == 0 then []
    else if ss[0].id == id then Without(ss[1..], id)
    else [ss[0]] + Without(ss[1..], id)
  }

  /** Removing by id works piecewise, so the kept sessions stay in their
      relative order. */
  lemma {:induction false} WithoutDistributes(a: seq<ChatSession>, b: seq<ChatSession>, id: string)
    ensures Without(a + b, id) == Without(a, id) + Without(b, id)
  {
    if |a| == 0 {
      assert a + b == b;
    } else {
      assert (a + b)[1..] == a[1..] + b;
      WithoutDistributes(a[1..], b, id);
    }
  }

  /** Removing an id that is not present changes nothing. */
  lemma {:induction false} WithoutAbsent(ss: seq<ChatSession>, id: string)
    requires forall c :: c in ss ==> c.id != id
    ensures Without(ss, id) == ss
  {
    if |ss| > 0 {
      assert ss[0] in ss;
      WithoutAbsent(ss[1..], id);
    }
  }

  /** Removing sessions keeps the list in recency order. */
  lemma {:induction false} WithoutKeepsOrder(ss: seq<ChatSession>, id: string)
    requires SortedDesc(ss)
    ensures SortedDesc(Without(ss, id))
  {
    if |ss| > 0 {
      var rest := Without(ss[1..], id);
      WithoutKeepsOrder(ss[1..], id);
      if ss[0].id != id {
        forall j | 0 <= j < |rest|
          ensures ss[0].lastUpdated >= rest[j].lastUpdated
        {
          assert rest[j] in ss[1..];
        }
      }
    }
  }

  /** `handleDeleteSession`: when the user confirms and the remote delete
      succeeds, every session with `id` goes and the active id is cleared if
      it was the deleted one (no other session is selected instead); otherwise
      nothing changes. */
  function DeleteSession(s: Store, id: string, confirmed: bool, ok: bool): (r: Store)
    ensures !(confirmed && ok) ==> r == s
    ensures confirmed && ok ==> forall c :: c in r.sessions <==> c in s.sessions && c.id != id
    ensures confirmed && ok ==> r.sessions == Without(s.sessions, id)
    ensures confirmed && ok ==> (r.activeId.None? <==> (s.activeId.None? || s.activeId == Some(id)))
    ensures r.activeId.Some? ==> r.activeId == s.activeId
    ensures r.editingId == s.editingId
  {
    if confirmed && ok then
      s.(sessions := Without(s.sessions, id),
         activeId := if s.activeId == Some(id) then None else s.activeId)
    else s
  }

  /** Deleting a freshly created session restores the list it was created
      from; the view is left with no active session. */
  lemma DeleteUndoesNewChat(s: Store, id: string, now: int)
    requires forall c :: c in s.sessions ==> c.id != id
    ensures DeleteSession(NewChat(s, id, now, true), id, true, true).sessions == s.sessions
    ensures DeleteSession(NewChat(s, id, now, true), id, true, true).activeId == None
  {
    WithoutAbsent(s.sessions, id);
    WithoutDistributes([NewSession(id, now)], s.sessions, id);
  }

  // ---------------------------------------------------------------------
  // Rename

  /** Gives every session with `id` the title `title`. */
  function Retitle(ss: seq<ChatSession>, id: string, title: string): (r: seq<ChatSession>)
    ensures |r| == |ss|
    ensures forall i :: 0 <= i < |ss| ==> r[i] == if ss[i].id == id then ss[i].(title := title) else ss[i]
  {
    seq(|ss|, i requires 0 <= i < |ss| => if ss[i].id == id then ss[i].(title := title) else ss[i])
  }

  /** `handleRenameSave` with the edited text `value`: a value that is all
      whitespace changes no session; otherwise, once the remote update
      succeeds, the sessions with `id` take the trimmed value as title. Only
      titles change, and editing always ends. */
  function RenameSave(s: Store, id: string, value: string, ok: bool): (r: Store)
    ensures r.editingId == None && r.activeId == s.activeId
    ensures (Text.AllSpace(value) || !ok) ==> r.sessions == s.sessions
    ensures |r.sessions| == |s.sessions|
    ensures forall i :: 0 <= i < |s.sessions| ==>
      && r.sessions[i].id == s.sessions[i].id
      && r.sessions[i].messages == s.sessions[i].messages
      && r.sessions[i].lastUpdated == s.sessions[i].lastUpdated
      && (s.sessions[i].id != id ==> r.sessions[i] == s.sessions[i])
    ensures !Text.AllSpace(value) && ok ==> forall i :: 0 <= i < |s.sessions| && s.sessions[i].id == id ==>
      && r.sessions[i].title == Text.Trim(value)
      && r.sessions[i].title != []
      && Text.Trim(r.sessions[i].title) == r.sessions[i].title
  {
    var title := Text.Trim(value);
    Text.TrimIdempotent(value);
    if title != [] && ok then
      s.(sessions := Retitle(s.sessions, id, title), editingId := None)
    else s.(editingId := None)
  }

  /** Renaming never touches timestamps, so it keeps recency order. */
  lemma RenameKeepsOrder(s: Store, id: string, value: string, ok: bool)
    requires SortedDesc(s.sessions)
    ensures SortedDesc(RenameSave(s, id, value, ok).sessions)
  {
    var r := RenameSave(s, id, value, ok).sessions;
    forall i, j | 0 <= i < j < |r| ensures r[i].lastUpdated >= r[j].lastUpdated {
      assert r[i].lastUpdated == s.sessions[i].lastUpdated;
      assert r[j].lastUpdated == s.sessions[j].lastUpdated;
    }
  }

  // ---------------------------------------------------------------------
  // Message update

  /** The title a session gets when its messages are replaced by `msgs`: a
      session still titled "New Explanation" is named after the first
      message — whole when it has at most 30 characters, else its first 27
      characters followed by "..." — and any other title is kept. */
  function DeriveTitle(current: string, msgs: seq<Message>): (t: string)
    ensures current != DefaultTitle || |msgs| == 0 ==> t == current
    ensures current == DefaultTitle && |msgs| > 0 ==>
      var first := msgs[0].content;
      && |t| <= 30
      && (|first| <= 30 ==> t == first)
      && (|first| > 30 ==> |t| == 30 && t[..27] == first[..27] && t[27..] == "...")
  {
    if current == DefaultTitle && |msgs| > 0 then
      var first := msgs[0].content;
      if |first| > 30 then first[..27] + "..." else first
    else current
  }

  /** A title is either kept or at most 30 characters long. */
  lemma TitleBound(current: string, msgs: seq<Message>)
    ensures DeriveTitle(current, msgs) == current || |DeriveTitle(current, msgs)| <= 30
  {
  }

  /** Titling again from a list with the same first message changes nothing,
      so the repeated whole-list writes of one send agree on the title. */
  lemma DeriveTitleStable(current: string, m1: seq<Message>, m2: seq<Message>)
    requires |m1| > 0 && |m2| > 0 && m1[0] == m2[0]
    ensures DeriveTitle(DeriveTitle(current, m1), m2) == DeriveTitle(current, m1)
  {
  }

  /** Stamps every session with `id` with the new messages, title and time. */
  function Touch(ss: seq<ChatSession>, id: string, msgs: seq<Message>, title: string, now: int)
    : (r: seq<ChatSession>)
    ensures |r| == |ss|
    ensures forall i :: 0 <= i < |ss| ==> r[i] == if ss[i].id == id
      then ss[i].(messages := msgs, title := title, lastUpdated := now) else ss[i]
  {
    seq(|ss|, i requires 0 <= i < |ss| =>
      if ss[i].id == id then ss[i].(messages := msgs, title := title, lastUpdated := now) else ss[i])
  }

  lemma {:induction false} TouchKeepsIds(ss: seq<ChatSession>, id: string, msgs: seq<Message>, title: string, now: int)
    ensures Ids(Touch(ss, id, msgs, title, now)) == Ids(ss)
  {
    if |ss| > 0 {
      TouchKeepsIds(ss[1..], id, msgs, title, now);
      assert Touch(ss, id, msgs, title, now)[1..] == Touch(ss[1..], id, msgs, title, now);
    }
  }

  /** What the successful write does to the list: stamp, then re-sort. */
  function Resort(ss: seq<ChatSession>, id: string, msgs: seq<Message>, title: string, now: int)
    : seq<ChatSession>
  {
    SortByRecency(Touch(ss, id, msgs, title, now))
  }

  lemma ResortMembers(ss: seq<ChatSession>, id: string, msgs: seq<Message>, title: string, now: int)
    ensures forall c :: c in Resort(ss, id, msgs, title, now) <==> c in Touch(ss, id, msgs, title, now)
  {
    var touched := Touch(ss, id, msgs, title, now);
    var sorted := SortByRecency(touched);
    forall c ensures c in sorted <==> c in touched {
      assert c in sorted <==> c in multiset(sorted);
      assert c in touched <==> c in multiset(touched);
    }
  }

  /** The re-sorted list holds the same ids. */
  lemma ResortKeepsIds(ss: seq<ChatSession>, id: string, msgs: seq<Message>, title: string, now: int)
    ensures |Resort(ss, id, msgs, title, now)| == |ss|
    ensures multiset(Ids(Resort(ss, id, msgs, title, now))) == multiset(Ids(ss))
  {
    TouchKeepsIds(ss, id, msgs, title, now);
    SortKeepsIds(Touch(ss, id, msgs, title, now));
  }

  /** Every session of the re-sorted list with `id` carries the stamp. */
  lemma ResortStamps(ss: seq<ChatSession>, id: string, msgs: seq<Message>, title: string, now: int)
    ensures forall c :: c in Resort(ss, id, msgs, title, now) && c.id == id ==>
      c.messages == msgs && c.lastUpdated == now && c.title == title
  {
    var touched := Touch(ss, id, msgs, title, now);
    ResortMembers(ss, id, msgs, title, now);
    forall c | c in touched && c.id == id ensures c.messages == msgs && c.lastUpdated == now && c.title == title {
      var i :| 0 <= i < |touched| && touched[i] == c;
    }
  }

  /** The sessions without `id` are the same before and after. */
  lemma ResortFrame(ss: seq<ChatSession>, id: string, msgs: seq<Message>, title: string, now: int)
    ensures forall c :: c in ss && c.id != id ==> c in Resort(ss, id, msgs, title, now)
    ensures forall c :: c in Resort(ss, id, msgs, title, now) && c.id != id ==> c in ss
  {
    var touched := Touch(ss, id, msgs, title, now);
    ResortMembers(ss, id, msgs, title, now);
    forall c | c in ss && c.id != id ensures c in touched {
      var i :| 0 <= i < |ss| && ss[i] == c;
      assert touched[i] == c;
    }
  }

  /** The stamped session is still found after the re-sort. */
  lemma ResortFinds(ss: seq<ChatSession>, id: string, msgs: seq<Message>, title: string, now: int)
    ensures Find(Resort(ss, id, msgs, title, now), id).Some? <==> Find(ss, id).Some?
  {
    var touched := Touch(ss, id, msgs, title, now);
    ResortMembers(ss, id, msgs, title, now);
    if Find(ss, id).Some? {
      var k := IndexOf(ss, id);
      assert touched[k] in touched;
    } else {
      forall c | c in touched ensures c.id != id {
        var i :| 0 <= i < |touched| && touched[i] == c;
        assert ss[i] in ss;
      }
    }
  }

  /** `updateSessionMessages(id, msgs)` with clock reading `now`: replaces the
      whole message list of session `id`, derives its title, stamps it and
      re-sorts the list by recency. A missing session or a failed remote
      update leaves the store as it was. */
  function UpdateSessionMessages(s: Store, id: string, msgs: seq<Message>, now: int, ok: bool)
    : (r: Store)
    ensures (Find(s.sessions, id).None? || !ok) ==> r == s
    ensures r.activeId == s.activeId && r.editingId == s.editingId
    ensures |r.sessions| == |s.sessions|
    ensures multiset(Ids(r.sessions)) == multiset(Ids(s.sessions))
    ensures Find(s.sessions, id).Some? && ok ==> SortedDesc(r.sessions)
    ensures Find(s.sessions, id).Some? && ok ==> forall c :: c in r.sessions && c.id == id ==>
      && c.messages == msgs
      && c.lastUpdated == now
      && c.title == DeriveTitle(Find(s.sessions, id).value.title, msgs)
    ensures forall c :: c in s.sessions && c.id != id ==> c in r.sessions
    ensures forall c :: c in r.sessions && c.id != id ==> c in s.sessions
    ensures Find(r.sessions, id).Some? <==> Find(s.sessions, id).Some?
  {
    match Find(s.sessions, id)
    case None => s
    case Some(current) =>
      if !ok then s
      else
        var title := DeriveTitle(current.title, msgs);
        ResortKeepsIds(s.sessions, id, msgs, title, now);
        ResortStamps(s.sessions, id, msgs, title, now);
        ResortFrame(s.sessions, id, msgs, title, now);
        ResortFinds(s.sessions, id, msgs, title, now);
        s.(sessions := Resort(s.sessions, id, msgs, title, now))
  }

  /** Stamping leaves the tie group of any other time as the sessions
      without `id` had it. */
  lemma {:induction false} TouchTieGroup(ss: seq<ChatSession>, id: string, msgs: seq<Message>, title: string, now: int, t: int)
    requires t != now
    ensures StampedAt(Touch(ss, id, msgs, title, now), t) == StampedAt(Without(ss, id), t)
  {
    if |ss| > 0 {
      TouchTieGroup(ss[1..], id, msgs, title, now, t);
      assert Touch(ss, id, msgs, title, now)[1..] == Touch(ss[1..], id, msgs, title, now);
      if ss[0].id != id {
        assert ([ss[0]] + Without(ss[1..], id))[1..] == Without(ss[1..], id);
      }
    }
  }

  /** Ties keep their order: after a successful update, the untouched
      sessions stamped with any time other than `now` appear in the same
      relative order as before. */
  lemma UpdateKeepsTieOrder(s: Store, id: string, msgs: seq<Message>, now: int, t: int)
    requires Find(s.sessions, id).Some?
    requires t != now
    ensures StampedAt(UpdateSessionMessages(s, id, msgs, now, true).sessions, t)
            == StampedAt(Without(s.sessions, id), t)
  {
    var title := DeriveTitle(Find(s.sessions, id).value.title, msgs);
    SortStable(Touch(s.sessions, id, msgs, title, now), t);
    TouchTieGroup(s.sessions, id, msgs, title, now, t);
  }

  /** Writing a session with a clock reading later than every stored session
      moves it to the top of the list. */
  lemma UpdatedSessionComesFirst(s: Store, id: string, msgs: seq<Message>, now: int)
    requires Find(s.sessions, id).Some?
    requires forall c :: c in s.sessions ==> c.lastUpdated < now
    ensures UpdateSessionMessages(s, id, msgs, now, true).sessions[0].id == id
  {
  }

  /** After a successful update the session found under `id` carries exactly
      the written messages, the write's time and the derived title. */
  lemma UpdateThenFind(s: Store, id: string, msgs: seq<Message>, now: int)
    requires Find(s.sessions, id).Some?
    ensures
      var c := Find(UpdateSessionMessages(s, id, msgs, now, true).sessions, id);
      && c.Some?
      && c.value.messages == msgs
      && c.value.lastUpdated == now
      && c.value.title == DeriveTitle(Find(s.sessions, id).value.title, msgs)
  {
  }

  /** Three successful writes of lists sharing their first message leave the
      session with the last list, the last time and the title derived from
      the first list. */
  lemma ThreeWrites(s: Store, id: string, m0: seq<Message>, m1: seq<Message>, m2: seq<Message>,
                    t0: int, t1: int, t2: int)
    requires Find(s.sessions, id).Some?
    requires |m0| > 0 && |m1| > 0 && |m2| > 0 && m1[0] == m0[0] && m2[0] == m0[0]
    ensures
      var fin := UpdateSessionMessages(UpdateSessionMessages(UpdateSessionMessages(
                   s, id, m0, t0, true), id, m1, t1, true), id, m2, t2, true);
      var c := Find(fin.sessions, id);
      && c.Some?
      && c.value.messages == m2
      && c.value.lastUpdated == t2
      && c.value.title == DeriveTitle(Find(s.sessions, id).value.title, m0)
      && SortedDesc(fin.sessions)
  {
    var s1 := UpdateSessionMessages(s, id, m0, t0, true);
    var s2 := UpdateSessionMessages(s1, id, m1, t1, true);
    UpdateThenFind(s, id, m0, t0);
    UpdateThenFind(s1, id, m1, t1);
    UpdateThenFind(s2, id, m2, t2);
    DeriveTitleStable(Find(s.sessions, id).value.title, m0, m1);
    DeriveTitleStable(Find(s.sessions, id).value.title, m0, m2);
  }

  // ---------------------------------------------------------------------
  // Worked scenarios

  /** A new chat whose first message has at most 30 characters is titled
      with that message, unchanged. */
  lemma ShortFirstMessageTitle(s: Store, id: string, now: int, later: int, m: Message)
    requires |m.content| <= 30
    ensures
      var created := NewChat(s, id, now, true);
      var r := UpdateSessionMessages(created, id, [m], later, true);
      Find(r.sessions, id).Some? && Find(r.sessions, id).value.title == m.content
  {
  }

  /** A new chat whose first message is longer than 30 characters is titled
      with its first 27 characters and "...". */
  lemma LongFirstMessageTitle(s: Store, id: string, now: int, later: int, m: Message)
    requires |m.content| > 30
    ensures
      var created := NewChat(s, id, now, true);
      var r := UpdateSessionMessages(created, id, [m], later, true);
      Find(r.sessions, id).Some? && Find(r.sessions, id).value.title == m.content[..27] + "..."
  {
  }

  /** Writing the second of two sessions, later than both were stamped,
      swaps them. */
  lemma {:induction false} SecondMovesUp(s: Store, id: string, msgs: seq<Message>, now: int)
    requires |s.sessions| == 2 && s.sessions[0].id != id && s.sessions[1].id == id
    requires s.sessions[0].lastUpdated < now && s.sessions[1].lastUpdated < now
    ensures Ids(UpdateSessionMessages(s, id, msgs, now, true).sessions) == [id, s.sessions[0].id]
  {
    var other := s.sessions[0];
    assert Find(s.sessions, id).Some? by {
      assert IndexOf(s.sessions, id) == 1;
    }
    UpdatedSessionComesFirst(s, id, msgs, now);
    var r := UpdateSessionMessages(s, id, msgs, now, true).sessions;
    assert other in r;
    assert r[1] == other by {
      if r[0] == other {
        assert false;
      }
    }
    IdsOfPair(r);
  }

  lemma IdsOfPair(r: seq<ChatSession>)
    requires |r| == 2
    ensures Ids(r) == [r[0].id, r[1].id]
  {
    assert Ids(r) == [r[0].id] + Ids(r[1..]);
    assert Ids(r[1..]) == [r[1].id] + Ids(r[2..]);
  }

  /** Two chats created at t1 < t2 and the older one written at t3 > t2: the
      older one moves back to the top. */
  lemma RewrittenChatMovesUp(id1: string, id2: string, t1: int, t2: int, t3: int, msgs: seq<Message>)
    requires id1 != id2 && t1 < t2 < t3
    ensures
      var two := NewChat(NewChat(Initial, id1, t1, true), id2, t2, true);
      Ids(UpdateSessionMessages(two, id1, msgs, t3, true).sessions) == [id1, id2]
  {
    var two := NewChat(NewChat(Initial, id1, t1, true), id2, t2, true);
    assert two.sessions == [NewSession(id2, t2), NewSession(id1, t1)];
    SecondMovesUp(two, id1, msgs, t3);
  }
}

=== FILE: text.dfy ===
/** The string primitives the application relies on: JavaScript's `trim`,
    `toLowerCase` and `includes`. Whitespace is a fixed set of code points and
    lower-casing maps only the ASCII letters A-Z; see README for what this
    leaves out. */
module Text {

  /** The characters `trim` removes (tab, line feed, vertical tab, form feed,
      carriage return, space, no-break space, line and paragraph separators,
      byte-order mark). */
  predicate IsSpace(c: char) {
    c == '\t' || c == '\n' || c == '\U{0B}' || c == '\U{0C}' || c == '\r'
    || c == ' ' || c == '\U{A0}' || c == '\U{2028}' || c == '\U{2029}'
    || c == '\U{FEFF}'
  }

  predicate AllSpace(s: string) {
    forall i :: 0 <= i < |s| ==> IsSpace(s[i])
  }

  /** Every character of `s` from index `lo` up to, not including, `hi` is
      whitespace. */
  predicate SpaceBetween(s: string, lo: int, hi: int) {
    forall i :: lo <= i < hi && 0 <= i < |s| ==> IsSpace(s[i])
  }

  /** Drops the leading whitespace of `s`. */
  function TrimStart(s: string): (r: string)
    ensures |r| <= |s| && r == s[|s| - |r|..]
    ensures r == [] || !IsSpace(r[0])
  {
    if |s| > 0 && IsSpace(s[0]) then TrimStart(s[1..]) else s
  }

  /** Drops the trailing whitespace of `s`. */
  function TrimEnd(s: string): (r: string)
    ensures |r| <= |s| && r == s[..|r|]
    ensures r == [] || !IsSpace(r[|r| - 1])
  {
    if |s| > 0 && IsSpace(s[|s| - 1]) then TrimEnd(s[..|s| - 1]) else s
  }

  /** What `TrimStart` drops is whitespace. */
  lemma {:induction false} TrimStartDropsSpace(s: string)
    ensures SpaceBetween(s, 0, |s| - |TrimStart(s)|)
  {
    if |s| > 0 && IsSpace(s[0]) {
      TrimStartDropsSpace(s[1..]);
      forall i | 1 <= i < |s| - |TrimStart(s)|
        ensures IsSpace(s[i])
      {
        assert s[i] == s[1..][i - 1];
      }
    }
  }

  /** What `TrimEnd` drops is whitespace. */
  lemma {:induction false} TrimEndDropsSpace(s: string)
    ensures SpaceBetween(s, |TrimEnd(s)|, |s|)
  {
    if |s| > 0 && IsSpace(s[|s| - 1]) {
      TrimEndDropsSpace(s[..|s| - 1]);
      forall i | |TrimEnd(s)| <= i < |s| - 1
        ensures IsSpace(s[i])
      {
        assert s[i] == s[..|s| - 1][i];
      }
    }
  }

  /** The number of whitespace characters `s` starts with. */
  function TrimOffset(s: string): (k: nat)
    ensures k <= |s|
  {
    |s| - |TrimStart(s)|
  }

  /** `s.trim()`: neither starts nor ends with whitespace, and is empty
      exactly when `s` is all whitespace. `TrimIsCut` says which piece of
      `s` it is. */
  function Trim(s: string): (r: string)
    ensures |r| <= |s|
    ensures r == [] || (!IsSpace(r[0]) && !IsSpace(r[|r| - 1]))
    ensures r == [] <==> AllSpace(s)
  {
    TrimBlankIffAllSpace(s);
    TrimEnd(TrimStart(s))
  }

  /** The trimmed string is what is left of `s` once its leading and its
      trailing whitespace are cut off: it starts at `TrimOffset(s)`, only
      whitespace comes before it and only whitespace after it. */
  lemma {:induction false} TrimIsCut(s: string)
    ensures TrimOffset(s) + |Trim(s)| <= |s|
    ensures Trim(s) == s[TrimOffset(s)..TrimOffset(s) + |Trim(s)|]
    ensures SpaceBetween(s, 0, TrimOffset(s))
    ensures SpaceBetween(s, TrimOffset(s) + |Trim(s)|, |s|)
  {
    TrimSlice(s);
    TrimSpace(s);
  }

  /** The slice part of `TrimIsCut`. */
  lemma {:induction false} TrimSlice(s: string)
    ensures TrimOffset(s) + |Trim(s)| <= |s|
    ensures Trim(s) == s[TrimOffset(s)..TrimOffset(s) + |Trim(s)|]
  {
  }

  /** The whitespace part of `TrimIsCut`. */
  lemma {:induction false} TrimSpace(s: string)
    ensures SpaceBetween(s, 0, TrimOffset(s))
    ensures SpaceBetween(s, TrimOffset(s) + |Trim(s)|, |s|)
  {
    var t := TrimStart(s);
    var r := TrimEnd(t);
    TrimStartDropsSpace(s);
    TrimEndDropsSpace(t);
    SuffixSpace(s, t, |s| - |t|, |r|);
  }

  /** Whitespace at the end of a suffix `t` of `s` is whitespace at the end
      of `s`. */
  lemma SuffixSpace(s: string, t: string, k: nat, m: nat)
    requires k + |t| == |s| && t == s[k..]
    requires m <= |t| && SpaceBetween(t, m, |t|)
    ensures SpaceBetween(s, k + m, |s|)
  {
    forall i | k + m <= i < |s|
      ensures IsSpace(s[i])
    {
      assert s[i] == t[i - k];
    }
  }

  /** Only an all-whitespace string trims to nothing. */
  lemma TrimBlankIffAllSpace(s: string)
    ensures TrimEnd(TrimStart(s)) == [] <==> AllSpace(s)
  {
    var t := TrimStart(s);
    var k := |s| - |t|;
    if TrimEnd(t) == [] {
      TrimEndDropsSpace(t);
      TrimStartDropsSpace(s);
      assert t == [];
    } else {
      assert s[k] == t[0];
      assert !IsSpace(s[k]);
    }
  }

  /** Trimming an already trimmed string changes nothing. */
  lemma TrimIdempotent(s: string)
    ensures Trim(Trim(s)) == Trim(s)
  {
    TrimOfTrimmed(Trim(s));
  }

  /** A string with no whitespace at either end is its own trim. */
  lemma TrimOfTrimmed(t: string)
    requires t == [] || (!IsSpace(t[0]) && !IsSpace(t[|t| - 1]))
    ensures Trim(t) == t
  {
    assert TrimStart(t) == t;
    assert TrimEnd(t) == t;
  }

  function LowerChar(c: char): char {
    if 'A' <= c <= 'Z' then (c as int + 32) as char else c
  }

  /** `s.toLowerCase()` restricted to ASCII: same length, every upper-case
      letter replaced by its lower-case partner, everything else kept. */
  function ToLower(s: string): (r: string)
    ensures |r| == |s|
    ensures forall i :: 0 <= i < |s| ==> r[i] == LowerChar(s[i])
  {
    seq(|s|, i requires 0 <= i < |s| => LowerChar(s[i]))
  }

  predicate IsLower(s: string) {
    forall i :: 0 <= i < |s| ==> !('A' <= s[i] <= 'Z')
  }

  /** The email key every account lookup and insert uses:
      `email.toLowerCase().trim()`. Lower-casing keeps every whitespace
      character, so it is the same as trimming first. */
  function NormalizeEmail(email: string): (r: string)
    ensures r == ToLower(Trim(email))
    ensures IsLower(r)
    ensures r == [] <==> AllSpace(email)
  {
    LowerTrimCommute(email);
    LowerIsLower(Trim(email));
    Trim(ToLower(email))
  }

  /** Lower-casing leaves no upper-case letter behind. */
  lemma LowerIsLower(s: string)
    ensures IsLower(ToLower(s))
  {
    var l := ToLower(s);
    forall i | 0 <= i < |l|
      ensures !('A' <= l[i] <= 'Z')
    {
      assert l[i] == LowerChar(s[i]);
    }
  }

  /** A character is whitespace exactly when its lower-case form is. */
  lemma LowerKeepsSpace(c: char)
    ensures IsSpace(LowerChar(c)) <==> IsSpace(c)
  {
  }

  /** Lower-casing commutes with cutting leading whitespace. */
  lemma {:induction false} LowerTrimStart(s: string)
    ensures TrimStart(ToLower(s)) == ToLower(TrimStart(s))
  {
    if |s| > 0 {
      var l := ToLower(s);
      LowerKeepsSpace(s[0]);
      assert l[0] == LowerChar(s[0]);
      if IsSpace(s[0]) {
        assert l[1..] == ToLower(s[1..]);
        LowerTrimStart(s[1..]);
      }
    }
  }

  /** Lower-casing commutes with cutting trailing whitespace. */
  lemma {:induction false} LowerTrimEnd(s: string)
    ensures TrimEnd(ToLower(s)) == ToLower(TrimEnd(s))
  {
    if |s| > 0 {
      var l := ToLower(s);
      LowerKeepsSpace(s[|s| - 1]);
      assert l[|s| - 1] == LowerChar(s[|s| - 1]);
      if IsSpace(s[|s| - 1]) {
        assert l[..|s| - 1] == ToLower(s[..|s| - 1]);
        LowerTrimEnd(s[..|s| - 1]);
      }
    }
  }

  /** Lower-casing then trimming is trimming then lower-casing. */
  lemma LowerTrimCommute(s: string)
    ensures Trim(ToLower(s)) == ToLower(Trim(s))
  {
    LowerTrimStart(s);
    LowerTrimEnd(TrimStart(s));
  }

  /** A normalized email is its own normal form, so a stored key found again
      by the same lookup. */
  lemma NormalizeIdempotent(email: string)
    ensures NormalizeEmail(NormalizeEmail(email)) == NormalizeEmail(email)
  {
    var t := Trim(email);
    var n := NormalizeEmail(email);
    assert n == ToLower(t);
    if n != [] {
      LowerKeepsSpace(t[0]);
      LowerKeepsSpace(t[|t| - 1]);
      assert n[0] == LowerChar(t[0]) && n[|n| - 1] == LowerChar(t[|t| - 1]);
    }
    TrimOfTrimmed(n);
    LowerOfLower(n);
  }

  /** Lower-casing a lower-case string changes nothing. */
  lemma LowerOfLower(s: string)
    requires IsLower(s)
    ensures ToLower(s) == s
  {
    forall i | 0 <= i < |s|
      ensures ToLower(s)[i] == s[i]
    {
      assert !('A' <= s[i] <= 'Z');
    }
  }

  /** `sub` occurs in `s` starting at index `k`. */
  predicate OccursAt(s: string, sub: string, k: int) {
    0 <= k && k + |sub| <= |s| && s[k..k + |sub|] == sub
  }

  /** `s.includes(sub)`: `sub` occurs somewhere in `s`. The empty string
      occurs in every string, and nothing occurs in a shorter string. */
  predicate Contains(s: string, sub: string): (b: bool)
    ensures sub == [] ==> b
    ensures b ==> |sub| <= |s|
  {
    assert sub == [] ==> OccursAt(s, sub, 0);
    exists k :: 0 <= k <= |s| - |sub| && OccursAt(s, sub, k)
  }

  /** A string contains every piece it is built from. */
  lemma ContainsInfix(a: string, sub: string, c: string)
    ensures Contains(a + sub + c, sub)
  {
    var s := a + sub + c;
    assert s[|a|..|a| + |sub|] == sub;
    assert OccursAt(s, sub, |a|);
  }
}

=== FILE: types.dfy ===
/** The entities of the ELI5 chat application: reading levels, chat messages,
    chat sessions, signed-in users and the application's authentication state.
    Strings are sequences of characters and timestamps are unbounded integers
    (milliseconds since the epoch in the application). */
module Types {

  /** Some/None, standing for a value that may be `null` or absent. */
  datatype Option<+T> = None | Some(value: T)

  /** The closed set of reading levels a user message can be tagged with. */
  datatype ReadingLevel = Toddler | Child | Teen | NonExpert | Skeptic

  /** Who wrote a message: the person using the app or the model. */
  datatype Role = UserRole | ModelRole

  /** One chat message; only user messages carry a reading level. */
  datatype Message = Message(
    id: string,
    role: Role,
    content: string,
    timestamp: int,
    level: Option<ReadingLevel>)

  /** A titled conversation with its whole message list and the time it was
      last written. */
  datatype ChatSession = ChatSession(
    id: string,
    title: string,
    messages: seq<Message>,
    lastUpdated: int)

  /** A signed-in account as the client keeps it (no password material). */
  datatype User = User(id: string, email: string, name: string)

  /** The application's record of who is signed in. */
  datatype AuthState = AuthState(user: Option<User>, isAuthenticated: bool)

  /** The title every new session starts with; a session still carrying it
      is titled automatically from its first message. */
  const DefaultTitle: string := "New Explanation"
}
